=== FILE: README.md ===
# Outreach admin panel: the client's decision rules in Dafny

This project models the small pure rules inside the outreach admin panel, a
browser client for tracking servantees (people served), retreats (events),
servants (staff users) and notes. Each rule is a total function over strings,
integers, sequences and maps, with its behaviour stated as contracts and lemmas:

- `Middleware` (`middleware.dfy`): the edge route guard. It redirects to
  `/login`, redirects to `/dashboard`, or passes the request through. It also
  models the path matcher that decides which requests the guard sees.
- `NavMain` (`nav.dfy`): which sidebar item is highlighted for a pathname.
- `PaginatedTable` (`pagination.dfy`): the previous/next buttons, their
  disabled conditions, and the page they move to.
- `EntityList` (`entity_list.dfy`): the list hook behind every table. It builds
  the query parameters, stores the response, computes `hasMore`, records errors
  and resets the page when the search term settles.
- `EntityDialog` (`entity_dialog.dfy`): the generic create/edit dialog. It
  prefills the form with dates cut to their date part, picks the method and URL,
  removes the server-managed keys and converts the date fields.
- `Notes` (`notes.dfy`): the notes panel. It models the requests for load,
  create, update and delete, the blank-draft guard, the local delete and the
  reload that follows a create or an update.
- `SectionCards` (`section_cards.dfy`): the dashboard cards. They show new
  servantees this month, the change against last month, the servant count and
  the next retreat.
- `Common`, `Decimal` and `Http` hold shared pieces: `Option`, an
  order-preserving `Filter` with its counting lemmas, integer-to-decimal text
  with its inverse, and JSON-like values with JavaScript truthiness.

Modelling choices:

- The network is replaced by the values it returns, so each load outcome is an
  input.
- Times are integer milliseconds. The current instant and the month starts are
  inputs, taken from `Clock`.
- `new Date(v).toISOString()` is a function parameter `toIso` that returns
  `None` when the date is invalid, which is when the client throws.
- The sort of future retreats is stable and compares whole seconds
  (`dayjs().unix()`). Taking its head is modelled as choosing the FIRST future
  retreat whose start second is minimal (`SectionCards.EarliestIndex`).
  `EarliestIndexUnique` shows that exactly one position fits that description.
- In the matcher `/((?!api|_next/static|_next/image|favicon.ico|logo).*)`, the
  `.` in `favicon.ico` is a regular-expression wildcard. So `/faviconXico` is
  excluded as well (`Middleware.FaviconLike`).

## Model

| member | source | states |
|---|---|---|
| Middleware.Handle | src/middleware.ts:4-23 | A request passes exactly when its path is outside the matcher or "has a token" and "is not an auth route" agree. Inside the matcher, a request with no token goes to `/login` exactly when the path is not an auth route. A request with a token goes to `/dashboard` exactly when the path is an auth route. The only redirect targets are `/login` and `/dashboard`. |
| Middleware.Guard | src/middleware.ts:9-18 | For a matched path, the guard passes exactly when "has a token" and "is not an auth route" agree. It redirects to `/login` exactly when there is no token, and to `/dashboard` exactly when there is one. |
| Middleware.Matched | src/middleware.ts:23 | Only paths starting with `/` are matched. `/` itself is matched. Paths starting with `/api`, `/_next/static`, `/_next/image` or `/logo` are not, and neither is a path with a line terminator after its leading `/`, which the anchored `.*` cannot span. |
| Middleware.UnauthenticatedGoesToLogin | src/middleware.ts:9-11 | With no token, a non-auth path redirects to `/login`. |
| Middleware.AuthenticatedLeavesAuthPages | src/middleware.ts:14-16 | With a token, an auth path redirects to `/dashboard`. |
| Middleware.PassThroughExactly | src/middleware.ts:9-18 | The guard passes exactly when "has a token" and "is not an auth route" agree. |
| Middleware.EmptyCookieIsNoToken | src/middleware.ts:5-9 | An empty cookie value gets the same answer as a missing cookie on every path. |
| Middleware.AuthRoutePrefixes | src/middleware.ts:6 | Auth routes are matched by character prefix: `/login/x` and `/registers` qualify, while `/dashboard` and `/log` do not. |
| Middleware.GuardedUnlessExcluded | src/middleware.ts:21-23 | Every path `/` + rest is matched, and the request gets the guard's answer, when rest starts with no excluded prefix and holds no line terminator. |
| Middleware.ExcludedPathsPass | src/middleware.ts:22-24 | Paths whose text after `/` starts with `api`, `_next/static`, `_next/image`, `favicon.ico` or `logo` pass untouched, whatever the cookie. |
| Middleware.TargetsAreGuarded | src/middleware.ts:10-23 | Both redirect targets, `/login` and `/dashboard`, are selected by the matcher. |
| Middleware.NoRedirectLoop | src/middleware.ts:6-18 | Following either redirect with the same cookie lands on a page that passes. |
| Middleware.OneRedirectSettles | src/middleware.ts:6-18 | After at most one redirect, the visitor is on an auth page exactly when they have no token. |
| NavMain.IsActive | src/components/nav-main.tsx:32-35 | An item is active on its own url. An active item's url is always a character prefix of the pathname. |
| NavMain.ActiveFlags | src/components/nav-main.tsx:31-35 | There is one flag per item, and each flag is that item's active rule: exact match for the dashboard item, character prefix for any other. An item whose url equals the pathname is highlighted. No highlighted item's url is longer than the pathname. |
| NavMain.DashboardExact | src/components/nav-main.tsx:32-34 | The dashboard item is active exactly on `/dashboard`. |
| NavMain.DashboardNotOnSubpaths | src/components/nav-main.tsx:32-34 | The dashboard item is not active on `/dashboard` followed by any non-empty suffix. |
| NavMain.OtherItemsByPrefix | src/components/nav-main.tsx:35 | Any other item is active exactly when its url is a prefix of the pathname. |
| NavMain.OwnPageActive | src/components/nav-main.tsx:32-35 | Every item is active on its own url. |
| NavMain.ActiveUnderExtension | src/components/nav-main.tsx:35 | A non-dashboard item that is active stays active when the pathname is extended. |
| NavMain.CharacterPrefixMatch | src/components/nav-main.tsx:35 | Matching is by characters: `/x` is active on `/xy`. |
| PaginatedTable.StepBack | src/components/shared/paginated-table.tsx:24 | "Previous" never goes below 1. From a page above 1 it moves back exactly one page. From page 1 or below it lands on 1. |
| PaginatedTable.StepForward | src/components/shared/paginated-table.tsx:33 | "Next" moves exactly one page forward, and from any valid page "previous" brings it back. |
| PaginatedTable.Click | src/components/shared/paginated-table.tsx:23-35 | A click on a disabled button changes nothing. An enabled "next" adds one page, and an enabled "previous" on a valid page subtracts one. `hasMore` and `loading` are untouched. |
| PaginatedTable.LoadingFreezes | src/components/shared/paginated-table.tsx:25-34 | While loading, both buttons are disabled and no sequence of clicks changes the state. |
| PaginatedTable.PageStaysPositive | src/components/shared/paginated-table.tsx:24-33 | From a page of at least 1, no sequence of clicks drops the page below 1. |
| PaginatedTable.BackThenForward | src/components/shared/paginated-table.tsx:24-33 | On a page above 1, "previous" then "next" returns to that page. |
| PaginatedTable.ForwardThenBack | src/components/shared/paginated-table.tsx:24-33 | On any valid page, "next" then "previous" returns to that page. |
| PaginatedTable.DisabledExactly | src/components/shared/paginated-table.tsx:25-34 | "Previous" is disabled exactly on page 1 or while loading. "Next" is disabled exactly when there is no more data or while loading. |
| Decimal.IntToDecimalRoundTrip | src/hooks/use-entity-list.ts:19-20 | The decimal text written for a page or limit reads back as the same integer. |
| EntityList.QueryParams | src/hooks/use-entity-list.ts:18-22 | The parameters are `page`, then `limit`, each with the decimal text of its number, then `search` with the term exactly when the term is non-empty. |
| EntityList.QueryCarriesPageLimitSearch | src/hooks/use-entity-list.ts:18-22 | The query always carries `page` and `limit`, and their texts read back as the given numbers. It carries `search` exactly when the debounced term is non-empty, and then with that term. |
| EntityList.EffectiveLimit | src/hooks/use-entity-list.ts:6 | A hook created without a page size uses 10. An explicit size is used as given. |
| EntityList.DefaultLimitIsTen | src/hooks/use-entity-list.ts:6-22 | A hook created without a page size sends `limit=10` with every load. |
| EntityList.StoredData | src/hooks/use-entity-list.ts:24 | The stored data is the envelope's rows when present, and otherwise the whole response. |
| EntityList.StoredDataKeepsServerRows | src/hooks/use-entity-list.ts:24 | Whichever shape the response has, the rows a table iterates are exactly the rows the server sent, and an envelope without rows leaves none. |
| EntityList.HasMore | src/hooks/use-entity-list.ts:25 | With no page count or a zero count there is more. With any other count, there is more exactly when the page is below it. |
| EntityList.LastPageHasNoMore | src/hooks/use-entity-list.ts:25 | On page `n` of an `n`-page listing, `hasMore` is false. |
| EntityList.ErrorText | src/hooks/use-entity-list.ts:27 | A non-empty error message is kept. A missing or empty one becomes the fixed default text. The stored text is never empty. |
| EntityList.Initial | src/hooks/use-entity-list.ts:7-12 | The hook starts on page 1, with no rows, more data assumed, idle and with no error. |
| EntityList.LoadStarted | src/hooks/use-entity-list.ts:17 | Starting a load raises the loading flag and changes nothing else. |
| EntityList.LoadStartedFreezesPager | src/hooks/use-entity-list.ts:17 | While a load runs, both pagination buttons the hook feeds are disabled and no click changes the pager. |
| EntityList.LoadSucceeded | src/hooks/use-entity-list.ts:23-30 | A successful load stores the response's data and recomputes `hasMore` for the current page. It ends loading and keeps the page and any earlier error. |
| EntityList.LoadFailed | src/hooks/use-entity-list.ts:26-30 | A failed load records `message || default` (the message when it is non-empty, otherwise the default text) and ends loading. It keeps the data, the page, `hasMore` and the search term. |
| EntityList.SearchSettled | src/hooks/use-entity-list.ts:37-39 | A changed debounced term resets the page to 1 and keeps the error, the data, `hasMore` and the loading flag. An unchanged term leaves the state as it was. |
| EntityList.LoadsOnSettle | src/hooks/use-entity-list.ts:31-39 | A newly settled term triggers one load when the page was already 1, and two loads otherwise. When there are two, the first is the load of the old page with the new term and the hook's limit. The last is always the load of the reset state. An unchanged term triggers none. |
| EntityList.SettleFirstLoadKeepsPage | src/hooks/use-entity-list.ts:18-39 | The first load after a new term settles still carries the old page, with the new term and the hook's limit. |
| EntityList.SettledSearchLoadsFirstPage | src/hooks/use-entity-list.ts:18-39 | The load issued after the page reset asks for `page=1` and carries the new term exactly when it is non-empty. |
| EntityList.NextStopsAtLastPage | src/hooks/use-entity-list.ts:25 | After a page of an `n`-page listing loads, "next" cannot move past page `n`. |
| EntityList.BareResponseKeepsNextOpen | src/hooks/use-entity-list.ts:24-25 | A bare-array response is stored whole, and `hasMore` stays true after it. |
| EntityDialog.ConvertDateFields | src/components/shared/entity-dialog.tsx:64-68 | Date conversion keeps the set of keys. It leaves every key not named by a date field untouched, and it leaves every falsy value untouched. |
| EntityDialog.ConvertDateFieldsDistinct | src/components/shared/entity-dialog.tsx:64-68 | With distinct field names, each truthy date field becomes the conversion of its original value. The walk fails exactly when one of those conversions fails. |
| EntityDialog.DatePart | src/components/shared/entity-dialog.tsx:44 | The date part is a prefix of the timestamp and contains no `T`. It stops exactly at the first `T`, if there is one. |
| EntityDialog.DatePartIdempotent | src/components/shared/entity-dialog.tsx:44 | Cutting to the date part twice gives the same result as cutting once. |
| EntityDialog.DatePartOfTimestamp | src/components/shared/entity-dialog.tsx:44 | For `<day>T<time>` with no `T` in `<day>`, the date part is `<day>`. |
| EntityDialog.Prefill | src/components/shared/entity-dialog.tsx:41-47 | The prefilled form has exactly the keys of the edited record, or no keys when there is none. Keys not named by a date field, and falsy values, are copied unchanged. |
| EntityDialog.PrefillSucceeds | src/components/shared/entity-dialog.tsx:41-47 | With distinct field names, the prefill exists whenever every truthy date field of the record holds a valid date. |
| EntityDialog.PrefillDates | src/components/shared/entity-dialog.tsx:42-46 | Each truthy date field is prefilled with the part of its ISO timestamp before `T`. |
| EntityDialog.MethodFor | src/components/shared/entity-dialog.tsx:53 | The method is POST exactly for create and PATCH exactly for edit. |
| Http.Interpolate | src/components/shared/entity-dialog.tsx:54 | A missing value reads `undefined`, a string is inserted as it is, and a number is inserted as decimal text that reads back as the same number. |
| EntityDialog.TargetPath | src/components/shared/entity-dialog.tsx:54 | Create targets `/<endpoint>`. Edit targets `/<endpoint>/<_id>`, and `/<endpoint>/undefined` when the record has no `_id`. Edit with no record being edited fails. |
| EntityDialog.Clean | src/components/shared/entity-dialog.tsx:55-61 | Cleaning removes exactly `_id`, `createdAt`, `updatedAt` and `__v` and keeps every other key with its value. |
| EntityDialog.Submit | src/components/shared/entity-dialog.tsx:51-70 | A submission sends POST for create and PATCH for edit, to the target path. The body's keys are the form's keys minus the reserved ones. Non-date and falsy values are sent unchanged. Edit with no record fails without a request. |
| EntityDialog.SubmitSucceeds | src/components/shared/entity-dialog.tsx:51-70 | With distinct field names, a submission sends its request whenever there is a target (create, or edit of a record) and every truthy date field of the cleaned form holds a valid date. |
| EntityDialog.CreateWithoutDatesPosts | src/components/shared/entity-dialog.tsx:51-70 | Creating with no date fields always POSTs exactly the cleaned form to `/<endpoint>`. |
| EntityDialog.PayloadHasNoReservedKey | src/components/shared/entity-dialog.tsx:58-61 | No sent payload contains a reserved key. |
| EntityDialog.SubmittedDates | src/components/shared/entity-dialog.tsx:64-68 | A truthy date field is sent as the ISO timestamp of its form value. |
| Notes.OwnerKey | src/components/shared/notes-button.tsx:67 | The owner key is `servanteeId` for a servantee and `retreatId` for a retreat. |
| Notes.FetchRequest | src/components/shared/notes-button.tsx:38-44 | Notes load with a GET of `/notes/<type>/<id>`. Nothing loads when the id is empty. |
| Notes.FetchPathNamesOwner | src/components/shared/notes-button.tsx:42-44 | Reading the load path back gives exactly the entity type and id whose notes were asked for. |
| Notes.Trim | src/components/shared/notes-button.tsx:61 | The trimmed text is a slice of the input with only white space cut from either side, and it neither starts nor ends with white space. |
| Notes.TrimEmptyIffBlank | src/components/shared/notes-button.tsx:61 | The trimmed text is empty exactly when every character is ECMAScript white space or a line terminator. |
| Notes.CreateRequest | src/components/shared/notes-button.tsx:60-69 | A blank draft sends nothing. Otherwise the panel POSTs `/notes` with exactly two keys: the untrimmed `content` and the owner key holding the entity id. |
| Notes.BlankDraftNeverSent | src/components/shared/notes-button.tsx:61 | A draft made only of white space is never submitted. |
| Notes.DeleteRequest | src/components/shared/notes-button.tsx:85 | Delete issues a DELETE of `/notes/<id>` with no body. |
| Notes.UpdateRequest | src/components/shared/notes-button.tsx:94-100 | Nothing is sent when no note is being edited. Otherwise the panel PATCHes `/notes/<id>` with only `content`. |
| Notes.RequestPathsNameNote | src/components/shared/notes-button.tsx:85-97 | Reading the delete or update path back gives exactly the id of the note acted on. |
| Notes.WithoutNote | src/components/shared/notes-button.tsx:86 | After the local delete, no note has the deleted id, and every other note is still present. |
| Notes.WithoutNoteKeepsOrder | src/components/shared/notes-button.tsx:86 | The remaining notes are a subsequence of the original list, so their order is kept. |
| Notes.WithoutNoteIdempotent | src/components/shared/notes-button.tsx:86 | Deleting the same id again changes nothing. |
| Notes.WithoutNoteSplits | src/components/shared/notes-button.tsx:86 | Local deletion acts independently on each part of a concatenated list. |
| Notes.AfterDelete | src/components/shared/notes-button.tsx:83-91 | A successful delete filters the note out. A failed delete leaves the panel unchanged. |
| Notes.ReloadRequested | src/components/shared/notes-button.tsx:38-44 | A reload issues the load request for the entity. With an id it marks the panel loading, and with an empty id it does nothing. |
| Notes.NotesLoaded | src/components/shared/notes-button.tsx:45-52 | A received list replaces the shown notes, a failed load keeps them, and loading ends either way. The draft and the editor are untouched. |
| Notes.AfterCreate | src/components/shared/notes-button.tsx:63-79 | A successful create clears the draft, keeps the edited text and issues the reload of the entity's notes. The panel is marked loading exactly when the entity id is non-empty or it was already loading. A failed create keeps the panel unchanged and issues nothing. |
| Notes.AfterUpdate | src/components/shared/notes-button.tsx:96-105 | A successful update closes the editor, keeps the edited text and issues the reload of the entity's notes. The panel is marked loading exactly when the entity id is non-empty or it was already loading. A failed update keeps the panel unchanged and issues nothing. |
| Notes.CreateThenReloadShowsServerList | src/components/shared/notes-button.tsx:45-71 | After a successful create and its reload, the panel shows exactly the server's list with an empty draft and is no longer loading. |
| Notes.StartEditing | src/components/shared/notes-button.tsx:166-169 | Opening the editor starts from the note's content, and an update request becomes possible. |
| SectionCards.CountThisMonth | src/components/section-cards.tsx:42-47 | The new-this-month count is the number of positions whose servantee was created strictly after the month start. |
| SectionCards.CountLastMonth | src/components/section-cards.tsx:43-51 | The last-month count is the number of positions created strictly between the two month starts. |
| SectionCards.MonthsDisjoint | src/components/section-cards.tsx:42-51 | The two counts together never exceed the number of servantees. |
| SectionCards.Change | src/components/section-cards.tsx:53-58 | The change is 100 when last month is empty. Otherwise, multiplied by last month's count, it equals 100 times the difference. It is never below -100. |
| SectionCards.ChangeSign | src/components/section-cards.tsx:56-58 | With a non-empty last month, the change is negative, zero or positive exactly as this month's count is lower, equal or higher. |
| SectionCards.ChangeRecoversCount | src/components/section-cards.tsx:56-58 | Applying the change to last month's count gives back this month's count. |
| SectionCards.ChangeWithEmptyLastMonth | src/components/section-cards.tsx:53-55 | An empty last month reports +100 whatever this month holds, including an empty one. |
| SectionCards.RoundHalfUp | src/components/section-cards.tsx:78 | The rounded value is within one half of the exact change, and halves round up. |
| SectionCards.Seconds | src/components/section-cards.tsx:72 | A timestamp's second is the whole second containing it. |
| SectionCards.EarliestIndex | src/components/section-cards.tsx:70-73 | The head of the stable sort has a minimal start second, and no earlier future retreat shares that second. |
| SectionCards.EarliestIndexUnique | src/components/section-cards.tsx:70-73 | Only one position is both minimal and first. |
| SectionCards.NextRetreat | src/components/section-cards.tsx:64-74 | There is no next retreat exactly when none starts after now. Otherwise the next retreat is a future retreat whose start second is at most that of every future retreat, and it is the first of those in list order, as the head of a stable sort is. |
| SectionCards.NextRetreatWithinASecond | src/components/section-cards.tsx:70-73 | The chosen retreat starts less than a second after any other future retreat. |
| SectionCards.InitialStats | src/components/section-cards.tsx:21-28 | The cards start in the loading state, with no retreats and no next retreat. |
| SectionCards.Refreshed | src/components/section-cards.tsx:42-83 | After a load, the new count is this month's count and the shown change is the rounded change of this month's count against last month's. The servant count is the number of users, the retreat list is stored in its original order and the next retreat is the earliest future one. The new count is bounded by the servantees, the rounded change is at least -100, and loading ends. |
| SectionCards.Refresh | src/components/section-cards.tsx:30-87 | A failed load leaves the previous cards as they were but stuck in the loading state, because loading is set before the loads and cleared only on success. A successful load shows exactly the cards computed from the loaded data. |
| SectionCards.FailedRefreshes | src/components/section-cards.tsx:30-92 | Any number of failed refreshes keep the previous cards and leave them marked loading. The client refreshes only once, from its mount effect, so the case that occurs is a single failure from the initial cards, which this covers. |
| SectionCards.RefreshForgetsFailures | src/components/section-cards.tsx:30-92 | A successful refresh after any number of failed ones shows the same cards as one from the initial state. The client refreshes only once, from its mount effect, so in the client this is the plain successful refresh. |

## Left out

- Network, cookies and sessions: `src/lib/api.ts` (a plain fetch that throws on a non-2xx status, with no token refresh or retry), `src/contexts/AuthContext.tsx` and `src/components/auth/ProtectedLayout.tsx` are I/O. Their results enter the model as inputs: cookie values, load outcomes and success flags.
- `src/components/login-form.tsx`: its validation is a library email rule, and the rest is a network call and local storage.
- The attendance range search in `src/app/(protected)/dashboard/search/page.tsx` and the other dashboard pages are outside the modelled components.
- Rendering-only components and build tooling are not modelled: dialogs, search bar, layouts, `next.config.ts` and `copy-static.js`.
- The timing of effects, the batching of state updates, the 500 ms debounce, toasts and console logging are not modelled. Each state change is a function from the old state to the new one. The order of the two list-hook effects is modelled (`EntityList.LoadsOnSettle`).
- Middleware.Matched: does not model the framework's compilation of the matcher (case sensitivity, trailing slashes, `_next/data` rewriting). The pattern is applied case-sensitively to the pathname.
- EntityList.SettledSearchLoadsFirstPage: the responses of the stale-page load and the page-1 load that follow a new term may arrive in either order. The one that arrives last sets the rows, and `hasMore` uses the page that load was issued with. Only the order of the requests is modelled, not the race between their responses.
- EntityList.QueryCarriesPageLimitSearch: stops at the ordered parameter list. `URLSearchParams` serialization and percent-encoding are not modelled.
- Decimal.IntToDecimalRoundTrip: JavaScript numbers are modelled as unbounded integers. The exponent notation `toString` uses from 10^21 upward is not modelled.
- EntityDialog.Submit: `JSON.stringify` of the body is not modelled. The body is the key/value map itself. Date conversion is the `toIso` parameter, not the `Date` parser.
- Http.Value: numbers in form data are integers, and objects and arrays are one opaque truthy value.
- SectionCards.Change: computed as an exact rational. The floating-point division and multiplication of the client are not modelled, so `RoundHalfUp` rounds the exact value.
- SectionCards.CountLastMonth: the month window is read in the order the client always passes it (previous month start, then current month start). The order-independence of the date library's `isBetween` is not used.
- SectionCards.Refreshed: dayjs parsing is not modelled. Every record carries an integer timestamp, so missing or invalid dates are outside the model.

=== FILE: common.dfy ===
/** Small shared vocabulary: an optional value and a filter-count over sequences. */
module Common {

  /** A value that may be absent (`undefined` / `null` in the client). */
  datatype Option<+T> = None | Some(value: T) {

    /** The value, or `default` when absent. */
    function GetOr(default: T): T {
      match this
      case Some(v) => v
      case None => default
    }
  }

  /** An operation that either yields a value or fails with an error. */
  datatype Result<+R, +E> = Success(value: R) | Failure(error: E)

  /** `xs.filter(p)`: the elements satisfying `p`, in their original order. */
  function Filter<T>(xs: seq<T>, p: T -> bool): (ys: seq<T>)
    ensures |ys| <= |xs|
    ensures forall y :: y in ys ==> y in xs && p(y)
    ensures forall x :: x in xs && p(x) ==> x in ys
  {
    if |xs| == 0 then []
    else if p(xs[0]) then [xs[0]] + Filter(xs[1..], p)
    else Filter(xs[1..], p)
  }

  /** Filtering distributes over concatenation, so the kept elements stay in order. */
  lemma {:induction false} FilterAppend<T>(a: seq<T>, b: seq<T>, p: T -> bool)
    ensures Filter(a + b, p) == Filter(a, p) + Filter(b, p)
  {
    if |a| == 0 {
      assert a + b == b;
    } else {
      assert (a + b)[1..] == a[1..] + b;
      FilterAppend(a[1..], b, p);
    }
  }

  /** Filtering twice by the same predicate changes nothing further. */
  lemma {:induction false} FilterIdempotent<T>(xs: seq<T>, p: T -> bool)
    ensures Filter(Filter(xs, p), p) == Filter(xs, p)
  {
    if |xs| > 0 {
      FilterIdempotent(xs[1..], p);
      if p(xs[0]) {
        assert ([xs[0]] + Filter(xs[1..], p))[1..] == Filter(xs[1..], p);
      }
    }
  }

  /** The set of positions of `xs` whose element satisfies `p`. */
  ghost function Positions<T>(xs: seq<T>, p: T -> bool): set<nat> {
    set i: nat | i < |xs| && p(xs[i])
  }

  /** `xs.filter(p).length` counts exactly the positions satisfying `p`. */
  lemma {:induction false} FilterCountsPositions<T>(xs: seq<T>, p: T -> bool)
    ensures |Filter(xs, p)| == |Positions(xs, p)|
  {
    if |xs| > 0 {
      var tail := Positions(xs[1..], p);
      FilterCountsPositions(xs[1..], p);
      ShiftedSize(tail);
      PositionsOfTail(xs, p);
      assert 0 !in Shift(tail);
    }
  }

  /** The positions of a non-empty sequence: possibly the head, then the tail's positions shifted by one. */
  lemma PositionsOfTail<T>(xs: seq<T>, p: T -> bool)
    requires |xs| > 0
    ensures Positions(xs, p) == (if p(xs[0]) then {0} else {}) + Shift(Positions(xs[1..], p))
  {
    var head: set<nat> := if p(xs[0]) then {0} else {};
    forall i: nat | i in Positions(xs, p) ensures i in head + Shift(Positions(xs[1..], p)) {
      if i > 0 {
        assert xs[1..][i - 1] == xs[i];
        assert i - 1 in Positions(xs[1..], p);
      }
    }
    forall i: nat | i in Shift(Positions(xs[1..], p)) ensures i in Positions(xs, p) {
      var j: nat :| j in Positions(xs[1..], p) && i == j + 1;
      assert xs[1..][j] == xs[i];
    }
  }

  /** Every position moved one place to the right. */
  ghost function Shift(s: set<nat>): set<nat> {
    set i: nat | i in s :: i + 1
  }

  /** Shifting every position by one keeps the number of positions. */
  lemma {:induction false} ShiftedSize(s: set<nat>)
    ensures |Shift(s)| == |s|
    decreases |s|
  {
    if s != {} {
      var x :| x in s;
      var rest := s - {x};
      ShiftedSize(rest);
      assert Shift(s) == Shift(rest) + {x + 1} by {
        forall y | y in Shift(s) ensures y in Shift(rest) + {x + 1} {
          var i: nat :| i in s && y == i + 1;
          if i != x { assert i in rest; }
        }
      }
      assert x + 1 !in Shift(rest);
    }
  }

  /** Two predicates that no element satisfies together select at most `|xs|` elements between them. */
  lemma {:induction false} FilterDisjointCounts<T>(xs: seq<T>, p: T -> bool, q: T -> bool)
    requires forall x :: x in xs ==> !(p(x) && q(x))
    ensures |Filter(xs, p)| + |Filter(xs, q)| <= |xs|
  {
    if |xs| > 0 {
      FilterDisjointCounts(xs[1..], p, q);
    }
  }
}

=== FILE: decimal.dfy ===
/** Decimal text of integers, as JavaScript's `Number.prototype.toString()` writes
    an integer-valued number below 10^21, and the inverse reading. */
module Decimal {
  import opened Common

  predicate IsDigit(c: char) {
    '0' <= c <= '9'
  }

  predicate AllDigits(s: string) {
    forall i :: 0 <= i < |s| ==> IsDigit(s[i])
  }

  function DigitChar(d: nat): (c: char)
    requires d < 10
    ensures IsDigit(c) && (c as int) - ('0' as int) == d
  {
    ('0' as int + d) as char
  }

  function DigitValue(c: char): nat
    requires IsDigit(c)
  {
    (c as int) - ('0' as int)
  }

  /** The shortest decimal numeral of `n`: no leading zero except for `0` itself. */
  function NatToDigits(n: nat): (s: string)
    ensures |s| >= 1 && AllDigits(s)
    ensures |s| > 1 ==> s[0] != '0'
    decreases n
  {
    if n < 10 then [DigitChar(n)] else NatToDigits(n / 10) + [DigitChar(n % 10)]
  }

  /** The value of a string of decimal digits, most significant first. */
  function DigitsToNat(s: string): nat
    requires AllDigits(s)
    decreases |s|
  {
    if |s| == 0 then 0 else DigitsToNat(s[..|s| - 1]) * 10 + DigitValue(s[|s| - 1])
  }

  lemma {:induction false} DigitsRoundTrip(n: nat)
    ensures DigitsToNat(NatToDigits(n)) == n
    decreases n
  {
    if n >= 10 {
      var s := NatToDigits(n);
      assert s[..|s| - 1] == NatToDigits(n / 10);
      DigitsRoundTrip(n / 10);
    }
  }

  /** `n.toString()` for an integer `n`. */
  function IntToDecimal(n: int): (s: string)
    ensures |s| >= 1
    ensures n >= 0 <==> s[0] != '-'
  {
    if n < 0 then "-" + NatToDigits(-n) else NatToDigits(n)
  }

  /** Reads back an optionally signed decimal numeral; `None` for anything else. */
  function ParseInt(s: string): Option<int> {
    if |s| > 1 && s[0] == '-' && AllDigits(s[1..]) then Some(-(DigitsToNat(s[1..]) as int))
    else if |s| > 0 && AllDigits(s) then Some(DigitsToNat(s))
    else None
  }

  /** The decimal text of an integer reads back as that integer, so distinct pages print distinctly. */
  lemma IntToDecimalRoundTrip(n: int)
    ensures ParseInt(IntToDecimal(n)) == Some(n)
  {
    if n < 0 {
      var s := IntToDecimal(n);
      assert s[1..] == NatToDigits(-n);
      DigitsRoundTrip(-n);
    } else {
      DigitsRoundTrip(n);
    }
  }
}

=== FILE: entity_dialog.dfy ===
/** The generic create/edit dialog: how it prefills the form and how it turns the
    submitted form into one request. Converting a value to an ISO timestamp
    (`new Date(v).toISOString()`) is a parameter `toIso`; `None` stands for the
    RangeError an invalid date raises. */
module EntityDialog {
  import opened Common
  import opened Http

  type Record = map<string, Value>

  /** A form field: its key and its declared input type, if any. */
  datatype Field = Field(name: string, kind: Option<string>)

  datatype Mode = Create | Edit

  /** Why a submission sends nothing. */
  datatype SubmitError = MissingInitialData | InvalidDate

  /** Server-managed keys that never travel back in a payload. */
  const ReservedKeys: set<string> := {"_id", "createdAt", "updatedAt", "__v"}

  predicate IsDateField(f: Field) {
    f.kind == Some("date")
  }

  /** The keys named by date fields. */
  function DateNames(fields: seq<Field>): set<string> {
    set i | 0 <= i < |fields| && IsDateField(fields[i]) :: fields[i].name
  }

  /** No two fields share a key. */
  predicate DistinctNames(fields: seq<Field>) {
    forall i, j :: 0 <= i < j < |fields| ==> fields[i].name != fields[j].name
  }

  /** Walks the fields in order and, for each date field whose current value is truthy,
      replaces that value by `convert` of it; the first failing conversion aborts the walk. */
  function ConvertDateFields(fields: seq<Field>, rec: Record, convert: Value -> Option<Value>): (r: Option<Record>)
    ensures r.Some? ==> r.value.Keys == rec.Keys
    ensures r.Some? ==> forall k :: k in rec && k !in DateNames(fields) ==> r.value[k] == rec[k]
    ensures r.Some? ==> forall k :: k in rec && !Truthy(rec[k]) ==> r.value[k] == rec[k]
    decreases |fields|
  {
    if |fields| == 0 then Some(rec)
    else
      var f := fields[0];
      assert DateNames(fields) == DateNames(fields[1..]) + (if IsDateField(f) then {f.name} else {}) by {
        forall k | k in DateNames(fields) ensures k in DateNames(fields[1..]) + (if IsDateField(f) then {f.name} else {}) {
          var i :| 0 <= i < |fields| && IsDateField(fields[i]) && fields[i].name == k;
          if i > 0 { assert fields[1..][i - 1] == fields[i]; }
        }
        forall k | k in DateNames(fields[1..]) ensures k in DateNames(fields) {
          var i :| 0 <= i < |fields[1..]| && IsDateField(fields[1..][i]) && fields[1..][i].name == k;
          assert fields[i + 1] == fields[1..][i];
        }
      }
      if IsDateField(f) && TruthyAt(rec, f.name) then
        match convert(rec[f.name])
        case None => None
        case Some(v) => ConvertDateFields(fields[1..], rec[f.name := v], convert)
      else ConvertDateFields(fields[1..], rec, convert)
  }

  /** With distinct keys, each truthy date field is converted exactly once from its original value,
      and the walk fails exactly when one of those conversions fails. */
  lemma {:induction false} ConvertDateFieldsDistinct(fields: seq<Field>, rec: Record, convert: Value -> Option<Value>)
    requires DistinctNames(fields)
    ensures var r := ConvertDateFields(fields, rec, convert);
            && (r.None? <==> exists i :: 0 <= i < |fields| && IsDateField(fields[i]) && TruthyAt(rec, fields[i].name)
                                         && convert(rec[fields[i].name]).None?)
            && (r.Some? ==> forall i :: 0 <= i < |fields| && IsDateField(fields[i]) && TruthyAt(rec, fields[i].name)
                                     ==> r.value[fields[i].name] == convert(rec[fields[i].name]).value)
    decreases |fields|
  {
    if |fields| > 0 {
      var f := fields[0];
      var tail := fields[1..];
      assert DistinctNames(tail) by {
        forall i, j | 0 <= i < j < |tail| ensures tail[i].name != tail[j].name {
          assert tail[i] == fields[i + 1] && tail[j] == fields[j + 1];
        }
      }
      assert forall i :: 0 <= i < |tail| ==> tail[i].name != f.name by {
        forall i | 0 <= i < |tail| ensures tail[i].name != f.name {
          assert tail[i] == fields[i + 1];
        }
      }
      assert forall i :: 0 < i < |fields| ==> fields[i] == tail[i - 1];
      if IsDateField(f) && TruthyAt(rec, f.name) {
        var c := convert(rec[f.name]);
        if c.Some? {
          var rec' := rec[f.name := c.value];
          ConvertDateFieldsDistinct(tail, rec', convert);
          assert f.name !in DateNames(tail);
          assert forall i :: 0 <= i < |tail| ==>
            (TruthyAt(rec', tail[i].name) == TruthyAt(rec, tail[i].name)
             && (tail[i].name in rec ==> rec'[tail[i].name] == rec[tail[i].name]));
        }
      } else {
        ConvertDateFieldsDistinct(tail, rec, convert);
      }
    }
  }

  /** `split('T')[0]`: the text before the first `T`, or all of it when there is none. */
  function DatePart(iso: string): (d: string)
    ensures d <= iso
    ensures forall i :: 0 <= i < |d| ==> d[i] != 'T'
    ensures |d| < |iso| ==> iso[|d|] == 'T'
    decreases |iso|
  {
    if |iso| == 0 || iso[0] == 'T' then "" else [iso[0]] + DatePart(iso[1..])
  }

  /** Truncating to the date part twice is the same as once. */
  lemma DatePartIdempotent(iso: string)
    ensures DatePart(DatePart(iso)) == DatePart(iso)
  {
  }

  /** The date part of a canonical ISO timestamp is its leading `YYYY-MM-DD`. */
  lemma DatePartOfTimestamp(day: string, time: string)
    requires forall i :: 0 <= i < |day| ==> day[i] != 'T'
    ensures DatePart(day + "T" + time) == day
  {
    var s := day + "T" + time;
    assert s[|day|] == 'T';
    assert s[..|day|] == day;
  }

  /** The form's starting values: a copy of the record being edited (or nothing when creating),
      with each truthy date field cut down to its date part. `None` when a date is invalid. */
  function Prefill(initial: Option<Record>, fields: seq<Field>, toIso: Value -> Option<string>): (r: Option<Record>)
    ensures r.Some? ==> r.value.Keys == initial.GetOr(map[]).Keys
    ensures r.Some? ==> forall k :: k in initial.GetOr(map[]) && k !in DateNames(fields) ==> r.value[k] == initial.GetOr(map[])[k]
    ensures r.Some? ==> forall k :: k in initial.GetOr(map[]) && !Truthy(initial.GetOr(map[])[k]) ==> r.value[k] == initial.GetOr(map[])[k]
  {
    ConvertDateFields(fields, initial.GetOr(map[]), v => match toIso(v) case Some(iso) => Some(Str(DatePart(iso))) case None => None)
  }

  /** With distinct keys, the prefill exists whenever every truthy date field of the record holds a valid date. */
  lemma PrefillSucceeds(initial: Option<Record>, fields: seq<Field>, toIso: Value -> Option<string>)
    requires DistinctNames(fields)
    requires forall i :: 0 <= i < |fields| && IsDateField(fields[i]) && TruthyAt(initial.GetOr(map[]), fields[i].name)
                         ==> toIso(initial.GetOr(map[])[fields[i].name]).Some?
    ensures Prefill(initial, fields, toIso).Some?
  {
    ConvertDateFieldsDistinct(fields, initial.GetOr(map[]), v => match toIso(v) case Some(iso) => Some(Str(DatePart(iso))) case None => None);
  }

  /** With distinct keys, every truthy date field of the prefill is the date part of its ISO timestamp. */
  lemma PrefillDates(initial: Record, fields: seq<Field>, toIso: Value -> Option<string>, i: nat)
    requires DistinctNames(fields)
    requires i < |fields| && IsDateField(fields[i]) && TruthyAt(initial, fields[i].name)
    requires toIso(initial[fields[i].name]).Some?
    requires Prefill(Some(initial), fields, toIso).Some?
    ensures Prefill(Some(initial), fields, toIso).value[fields[i].name] == Str(DatePart(toIso(initial[fields[i].name]).value))
  {
    ConvertDateFieldsDistinct(fields, initial, v => match toIso(v) case Some(iso) => Some(Str(DatePart(iso))) case None => None);
  }

  /** POST when creating, PATCH when editing. */
  function MethodFor(mode: Mode): (m: Method)
    ensures m == Post <==> mode == Create
    ensures m == Patch <==> mode == Edit
  {
    match mode
    case Create => Post
    case Edit => Patch
  }

  /** `/<endpoint>` when creating; `/<endpoint>/<initialData._id>` when editing, which fails
      when there is no record being edited. */
  function TargetPath(mode: Mode, endpoint: string, initial: Option<Record>): (r: Result<string, SubmitError>)
    ensures mode == Create ==> r == Success("/" + endpoint)
    ensures mode == Edit && initial.None? ==> r == Failure(MissingInitialData)
    ensures mode == Edit && initial.Some? && "_id" in initial.value && initial.value["_id"].Str?
            ==> r == Success("/" + endpoint + "/" + initial.value["_id"].text)
    ensures mode == Edit && initial.Some? && "_id" !in initial.value ==> r == Success("/" + endpoint + "/undefined")
  {
    match mode
    case Create => Success("/" + endpoint)
    case Edit =>
      if initial.None? then Failure(MissingInitialData)
      else
        var id := if "_id" in initial.value then Some(initial.value["_id"]) else None;
        assert id.None? ==> "/" + endpoint + "/" + Interpolate(id) == "/" + endpoint + "/undefined";
        Success("/" + endpoint + "/" + Interpolate(id))
  }

  /** The copy of the form data without the reserved keys. */
  function Clean(data: Record): (r: Record)
    ensures r.Keys == data.Keys - ReservedKeys
    ensures forall k :: k in r ==> r[k] == data[k]
  {
    data - ReservedKeys
  }

  /** The request a submission issues, or why it issues none. */
  function Submit(mode: Mode, endpoint: string, initial: Option<Record>, fields: seq<Field>,
                  data: Record, toIso: Value -> Option<string>): (r: Result<Request, SubmitError>)
    ensures r.Success? ==> r.value.verb == MethodFor(mode) && r.value.body.Some?
    ensures r.Success? ==> Success(r.value.path) == TargetPath(mode, endpoint, initial)
    ensures r.Success? ==> r.value.body.value.Keys == data.Keys - ReservedKeys
    ensures r.Success? ==> forall k :: k in r.value.body.value && k !in DateNames(fields) ==> r.value.body.value[k] == data[k]
    ensures r.Success? ==> forall k :: k in r.value.body.value && !Truthy(data[k]) ==> r.value.body.value[k] == data[k]
    ensures mode == Edit && initial.None? ==> r == Failure(MissingInitialData)
  {
    match TargetPath(mode, endpoint, initial)
    case Failure(e) => Failure(e)
    case Success(path) =>
      match ConvertDateFields(fields, Clean(data), v => match toIso(v) case Some(iso) => Some(Str(iso)) case None => None)
      case None => Failure(InvalidDate)
      case Some(payload) => Success(Request(MethodFor(mode), path, Some(payload)))
  }

  /** A submission sends its request whenever there is a target (creating, or editing a record)
      and every truthy date field of the cleaned form holds a valid date. */
  lemma SubmitSucceeds(mode: Mode, endpoint: string, initial: Option<Record>, fields: seq<Field>,
                       data: Record, toIso: Value -> Option<string>)
    requires DistinctNames(fields)
    requires mode == Create || initial.Some?
    requires forall i :: 0 <= i < |fields| && IsDateField(fields[i]) && TruthyAt(Clean(data), fields[i].name)
                         ==> toIso(Clean(data)[fields[i].name]).Some?
    ensures Submit(mode, endpoint, initial, fields, data, toIso).Success?
  {
    ConvertDateFieldsDistinct(fields, Clean(data), v => match toIso(v) case Some(iso) => Some(Str(iso)) case None => None);
  }

  /** Creating without date fields always POSTs the cleaned form to `/<endpoint>`. */
  lemma CreateWithoutDatesPosts(endpoint: string, fields: seq<Field>, data: Record, toIso: Value -> Option<string>)
    requires DistinctNames(fields)
    requires forall i :: 0 <= i < |fields| ==> !IsDateField(fields[i])
    ensures Submit(Create, endpoint, None, fields, data, toIso)
            == Success(Request(Post, "/" + endpoint, Some(Clean(data))))
  {
    SubmitSucceeds(Create, endpoint, None, fields, data, toIso);
    var r := Submit(Create, endpoint, None, fields, data, toIso);
    assert DateNames(fields) == {};
    assert r.value.body.value == Clean(data);
  }

  /** No payload ever carries a server-managed key. */
  lemma PayloadHasNoReservedKey(mode: Mode, endpoint: string, initial: Option<Record>, fields: seq<Field>,
                                data: Record, toIso: Value -> Option<string>, k: string)
    requires Submit(mode, endpoint, initial, fields, data, toIso).Success?
    requires k in ReservedKeys
    ensures k !in Submit(mode, endpoint, initial, fields, data, toIso).value.body.value
  {
  }

  /** With distinct keys, a truthy date field of the form is sent as its ISO timestamp. */
  lemma SubmittedDates(mode: Mode, endpoint: string, initial: Option<Record>, fields: seq<Field>,
                       data: Record, toIso: Value -> Option<string>, i: nat)
    requires DistinctNames(fields)
    requires i < |fields| && IsDateField(fields[i]) && fields[i].name !in ReservedKeys
    requires TruthyAt(data, fields[i].name)
    requires Submit(mode, endpoint, initial, fields, data, toIso).Success?
    ensures toIso(data[fields[i].name]).Some?
    ensures Submit(mode, endpoint, initial, fields, data, toIso).value.body.value[fields[i].name]
            == Str(toIso(data[fields[i].name]).value)
  {
    var convert := v => match toIso(v) case Some(iso) => Some(Str(iso)) case None => None;
    ConvertDateFieldsDistinct(fields, Clean(data), convert);
  }
}

=== FILE: entity_list.dfy ===
/** The list hook behind every table: query construction, response handling and
    the page reset on a new search. */
module EntityList {
  import opened Common
  import Decimal
  import PaginatedTable

  /** Rows per page when the caller does not say. */
  const DefaultLimit := 10

  /** The message stored when a failed load carries no message of its own ("error loading data"). */
  const DefaultError := "خطأ في تحميل البيانات"

  /** The query parameters of one load, in insertion order. */
  function QueryParams(page: int, limit: int, search: string): (ps: seq<(string, string)>)
    ensures |ps| == if search == "" then 2 else 3
    ensures ps[0] == ("page", Decimal.IntToDecimal(page)) && ps[1] == ("limit", Decimal.IntToDecimal(limit))
    ensures search != "" ==> ps[2] == ("search", search)
  {
    [("page", Decimal.IntToDecimal(page)), ("limit", Decimal.IntToDecimal(limit))]
      + (if search != "" then [("search", search)] else [])
  }

  /** The first value recorded under `key`, as `URLSearchParams.get` reads it. */
  function Lookup(params: seq<(string, string)>, key: string): (v: Option<string>)
    ensures v.Some? <==> exists i :: 0 <= i < |params| && params[i].0 == key
    decreases |params|
  {
    if |params| == 0 then None
    else if params[0].0 == key then Some(params[0].1)
    else Lookup(params[1..], key)
  }

  /** The query always carries the page and the limit, and carries the search term exactly when it is non-empty. */
  lemma QueryCarriesPageLimitSearch(page: int, limit: int, search: string)
    ensures var q := QueryParams(page, limit, search);
            && Lookup(q, "page").Some? && Decimal.ParseInt(Lookup(q, "page").value) == Some(page)
            && Lookup(q, "limit").Some? && Decimal.ParseInt(Lookup(q, "limit").value) == Some(limit)
            && (search != "" <==> Lookup(q, "search") == Some(search))
            && (search == "" <==> Lookup(q, "search") == None)
            && |q| == (if search == "" then 2 else 3)
  {
    Decimal.IntToDecimalRoundTrip(page);
    Decimal.IntToDecimalRoundTrip(limit);
    var q := QueryParams(page, limit, search);
    assert q[0].0 == "page" && q[1].0 == "limit";
    assert Lookup(q, "search") == Lookup(q[1..], "search") == Lookup(q[2..], "search");
    if search != "" {
      assert q[2..] == [("search", search)];
    } else {
      assert q[2..] == [];
    }
  }

  /** A load's response: either an envelope `{ data?, pages? }` or a bare array of rows. */
  datatype Response<T> = Envelope(data: Option<seq<T>>, pages: Option<int>) | Bare(rows: seq<T>)

  /** What `res.data || res` stores: the rows of the envelope when present, otherwise the whole response. */
  datatype Stored<T> = Rows(items: seq<T>) | WholeResponse(response: Response<T>)

  function StoredData<T>(res: Response<T>): (d: Stored<T>)
    ensures d.Rows? <==> res.Envelope? && res.data.Some?
    ensures d.Rows? ==> d.items == res.data.value
    ensures d.WholeResponse? ==> d.response == res
  {
    match res
    case Envelope(Some(rows), _) => Rows(rows)
    case _ => WholeResponse(res)
  }

  /** The rows the server sent: the envelope's rows, or the bare array; an envelope without rows has none. */
  function ServerRows<T>(res: Response<T>): Option<seq<T>> {
    match res
    case Envelope(data, _) => data
    case Bare(rows) => Some(rows)
  }

  /** The rows a table iterates over in what was stored: a stored array is iterated as it is. */
  function StoredRows<T>(d: Stored<T>): Option<seq<T>> {
    match d
    case Rows(items) => Some(items)
    case WholeResponse(Bare(rows)) => Some(rows)
    case WholeResponse(Envelope(_, _)) => None
  }

  /** Whichever shape the response has, the table ends up with exactly the rows the server sent. */
  lemma StoredDataKeepsServerRows<T>(res: Response<T>)
    ensures StoredRows(StoredData(res)) == ServerRows(res)
  {
  }

  /** The page count a response announces; a bare array has none. */
  function Pages<T>(res: Response<T>): Option<int> {
    if res.Envelope? then res.pages else None
  }

  /** `!res.pages || page < res.pages`: a missing or zero page count means "more may follow". */
  function HasMore(page: int, pages: Option<int>): (more: bool)
    ensures pages.None? || pages == Some(0) ==> more
    ensures pages.Some? && pages.value > 0 && page >= pages.value ==> !more
    ensures pages.Some? && page < pages.value ==> more
    ensures pages.Some? && pages.value != 0 ==> (more <==> page < pages.value)
  {
    pages.None? || pages.value == 0 || page < pages.value
  }

  /** On the last page of a non-empty listing there is nothing more. */
  lemma LastPageHasNoMore(n: int)
    requires n > 0
    ensures !HasMore(n, Some(n))
  {
  }

  /** `err.message || default`: an absent or empty message falls back to the default text. */
  function ErrorText(message: Option<string>): (t: string)
    ensures t != ""
    ensures message.Some? && message.value != "" ==> t == message.value
    ensures message.None? || message == Some("") ==> t == DefaultError
  {
    if message.Some? && message.value != "" then message.value else DefaultError
  }

  /** The hook's state between renders. */
  datatype ListState<T> = ListState(
    data: Stored<T>,
    page: int,
    hasMore: bool,
    loading: bool,
    error: Option<string>,
    debouncedSearch: string)

  /** The first render: no rows, page 1, more assumed, idle, no error, empty search. */
  function Initial<T>(): (s: ListState<T>)
    ensures s.page == 1 && s.hasMore && !s.loading && s.error.None? && s.data == Rows([])
  {
    ListState(Rows([]), 1, true, false, None, "")
  }

  /** The page size in force: the caller's, or the default when none is given. */
  function EffectiveLimit(limit: Option<int>): (n: int)
    ensures limit.None? ==> n == DefaultLimit
    ensures limit.Some? ==> n == limit.value
  {
    limit.GetOr(DefaultLimit)
  }

  /** The parameters of the state's next load. */
  function LoadParams<T>(s: ListState<T>, limit: Option<int>): seq<(string, string)> {
    QueryParams(s.page, EffectiveLimit(limit), s.debouncedSearch)
  }

  /** A hook created without a page size asks for ten rows per page. */
  lemma DefaultLimitIsTen<T>(s: ListState<T>)
    ensures Lookup(LoadParams(s, None), "limit") == Some("10")
  {
    QueryCarriesPageLimitSearch(s.page, DefaultLimit, s.debouncedSearch);
    assert Decimal.IntToDecimal(10) == "10";
  }

  /** A load begins: the loading flag is raised and nothing else changes. */
  function LoadStarted<T>(s: ListState<T>): (s': ListState<T>)
    ensures s'.loading
    ensures s'.(loading := s.loading) == s
  {
    s.(loading := true)
  }

  /** A load that succeeded: rows stored, `hasMore` recomputed for the current page, idle again.
      An earlier error message is left as it was. */
  function LoadSucceeded<T>(s: ListState<T>, res: Response<T>): (s': ListState<T>)
    ensures s'.data == StoredData(res) && s'.hasMore == HasMore(s.page, Pages(res))
    ensures !s'.loading && s'.page == s.page && s'.error == s.error
    ensures s'.debouncedSearch == s.debouncedSearch
  {
    s.(data := StoredData(res), hasMore := HasMore(s.page, Pages(res)), loading := false)
  }

  /** A load that failed: the message recorded, everything else kept, idle again. */
  function LoadFailed<T>(s: ListState<T>, message: Option<string>): (s': ListState<T>)
    ensures s'.error.Some? && s'.error.value != ""
    ensures s'.error == Some(ErrorText(message)) && s'.debouncedSearch == s.debouncedSearch
    ensures !s'.loading && s'.data == s.data && s'.page == s.page && s'.hasMore == s.hasMore
  {
    s.(error := Some(ErrorText(message)), loading := false)
  }

  /** The debounced term changed: back to page 1. An unchanged term leaves the state alone. */
  function SearchSettled<T>(s: ListState<T>, term: string): (s': ListState<T>)
    ensures s'.debouncedSearch == term
    ensures term != s.debouncedSearch ==> s'.page == 1 && s'.error == s.error
    ensures term == s.debouncedSearch ==> s' == s
    ensures s'.data == s.data && s'.hasMore == s.hasMore && s'.loading == s.loading
  {
    if term != s.debouncedSearch then s.(debouncedSearch := term, page := 1) else s
  }

  /** The controls under the table, as the hook feeds them. */
  function PagerOf<T>(s: ListState<T>): PaginatedTable.Pager {
    PaginatedTable.Pager(s.page, s.hasMore, s.loading)
  }

  /** While a load runs, both buttons the hook feeds are disabled and clicks change nothing. */
  lemma LoadStartedFreezesPager<T>(s: ListState<T>, bs: seq<PaginatedTable.Button>)
    ensures !PaginatedTable.Enabled(PagerOf(LoadStarted(s)), PaginatedTable.Previous)
    ensures !PaginatedTable.Enabled(PagerOf(LoadStarted(s)), PaginatedTable.Next)
    ensures PaginatedTable.Clicks(PagerOf(LoadStarted(s)), bs) == PagerOf(LoadStarted(s))
  {
    PaginatedTable.LoadingFreezes(PagerOf(LoadStarted(s)), bs);
  }

  /** The loads a newly settled term triggers. The load effect is declared before the page reset, so it
      fires first with the old page and the new term; when that page was not 1, the reset then changes
      the page and a second load follows. An unchanged term triggers no load. */
  function LoadsOnSettle<T>(s: ListState<T>, term: string, limit: Option<int>): (loads: seq<seq<(string, string)>>)
    ensures term == s.debouncedSearch ==> loads == []
    ensures term != s.debouncedSearch ==> |loads| == (if s.page == 1 then 1 else 2)
    ensures term != s.debouncedSearch ==> loads[|loads| - 1] == LoadParams(SearchSettled(s, term), limit)
    ensures term != s.debouncedSearch && s.page != 1 ==> loads[0] == LoadParams(s.(debouncedSearch := term), limit)
  {
    if term == s.debouncedSearch then []
    else if s.page == 1 then [LoadParams(SearchSettled(s, term), limit)]
    else [LoadParams(s.(debouncedSearch := term), limit), LoadParams(SearchSettled(s, term), limit)]
  }

  /** The first load after a new term settles still carries the page the user was on, with the new term. */
  lemma SettleFirstLoadKeepsPage<T>(s: ListState<T>, term: string, limit: Option<int>)
    requires term != s.debouncedSearch
    ensures var first := LoadsOnSettle(s, term, limit)[0];
            && Decimal.ParseInt(Lookup(first, "page").value) == Some(s.page)
            && Lookup(first, "search") == (if term != "" then Some(term) else None)
            && Decimal.ParseInt(Lookup(first, "limit").value) == Some(EffectiveLimit(limit))
  {
    QueryCarriesPageLimitSearch(s.page, EffectiveLimit(limit), term);
  }

  /** The load issued after the page reset asks for page 1 with the new term. */
  lemma SettledSearchLoadsFirstPage<T>(s: ListState<T>, term: string, limit: Option<int>)
    requires term != s.debouncedSearch
    ensures Lookup(LoadParams(SearchSettled(s, term), limit), "page") == Some("1")
    ensures Lookup(LoadParams(SearchSettled(s, term), limit), "search") == (if term != "" then Some(term) else None)
  {
    QueryCarriesPageLimitSearch(1, EffectiveLimit(limit), term);
    assert Decimal.IntToDecimal(1) == "1";
  }

  /** After a page of an `n`-page listing has loaded, "next" cannot move past page `n`. */
  lemma NextStopsAtLastPage<T>(s: ListState<T>, rows: seq<T>, n: int)
    requires n > 0 && 1 <= s.page <= n
    ensures var loaded := LoadSucceeded(s, Envelope(Some(rows), Some(n)));
            PaginatedTable.Click(PagerOf(loaded), PaginatedTable.Next).page <= n
  {
  }

  /** A bare-array response never reports an end, so "next" stays enabled after it. */
  lemma BareResponseKeepsNextOpen<T>(s: ListState<T>, rows: seq<T>)
    ensures LoadSucceeded(s, Bare(rows)).hasMore
    ensures LoadSucceeded(s, Bare(rows)).data == WholeResponse(Bare(rows))
  {
  }
}

=== FILE: http.dfy ===
/** The shapes the client sends to and receives from the REST backend: JSON-like
    values with JavaScript truthiness, and the outgoing request. */
module Http {
  import opened Common
  import Decimal

  datatype Method = Get | Post | Patch | Delete

  /** A field value in a form record or response object. `Structured` stands for
      any object or array, which the client only carries along. */
  datatype Value = Str(text: string) | Num(number: int) | Bool(flag: bool) | Null | Structured

  /** JavaScript truthiness: `""`, `0`, `false` and `null` are falsy; objects and arrays are truthy. */
  predicate Truthy(v: Value) {
    match v
    case Str(t) => t != ""
    case Num(n) => n != 0
    case Bool(b) => b
    case Null => false
    case Structured => true
  }

  /** A record read with `rec[key]`: an absent key reads as `undefined`, which is falsy. */
  predicate TruthyAt(rec: map<string, Value>, key: string) {
    key in rec && Truthy(rec[key])
  }

  /** The text a template literal `${v}` produces for a value. */
  function Interpolate(v: Option<Value>): (t: string)
    ensures v.None? ==> t == "undefined"
    ensures v.Some? && v.value.Str? ==> t == v.value.text
    ensures v.Some? && v.value.Num? ==> Decimal.ParseInt(t) == Some(v.value.number)
  {
    match v
    case None => "undefined"
    case Some(Str(t)) => t
    case Some(Num(n)) => Decimal.IntToDecimalRoundTrip(n); Decimal.IntToDecimal(n)
    case Some(Bool(b)) => if b then "true" else "false"
    case Some(Null) => "null"
    case Some(Structured) => "[object Object]"
  }

  /** A request handed to the fetch helper: method, path below the API base, and the JSON body if any. */
  datatype Request = Request(verb: Method, path: string, body: Option<map<string, Value>>)
}

=== FILE: middleware.dfy ===
/** The edge route guard: which requests it sees (the path matcher) and what it
    answers (redirect to the login page, redirect to the dashboard, or pass). */
module Middleware {
  import opened Common

  const LoginPath := "/login"
  const RegisterPath := "/register"
  const DashboardPath := "/dashboard"

  datatype Outcome = Redirect(target: string) | PassThrough

  /** The `access_token` cookie counts only when present and non-empty (an empty string is falsy). */
  predicate HasToken(cookie: Option<string>) {
    cookie.Some? && cookie.value != ""
  }

  /** Login and register pages, by plain character prefix. */
  predicate IsAuthRoute(path: string) {
    LoginPath <= path || RegisterPath <= path
  }

  /** The guard's answer for a request it sees. */
  function Guard(cookie: Option<string>, path: string): (o: Outcome)
    ensures o == PassThrough <==> (HasToken(cookie) <==> !IsAuthRoute(path))
    ensures o.Redirect? ==> (o.target == LoginPath <==> !HasToken(cookie))
    ensures o.Redirect? ==> (o.target == DashboardPath <==> HasToken(cookie))
  {
    if !HasToken(cookie) && !IsAuthRoute(path) then Redirect(LoginPath)
    else if HasToken(cookie) && IsAuthRoute(path) then Redirect(DashboardPath)
    else PassThrough
  }

  /** A line terminator, which a regular-expression `.` does not match. */
  predicate IsLineTerminator(c: char) {
    c == '\n' || c == '\r' || c == '\U{2028}' || c == '\U{2029}'
  }

  /** The alternative `favicon.ico`, whose `.` matches any one character but a line terminator. */
  predicate FaviconLike(rest: string) {
    |rest| >= 11 && rest[..7] == "favicon" && !IsLineTerminator(rest[7]) && rest[8..11] == "ico"
  }

  /** The negative look-ahead: the text after the leading `/` starts with an excluded prefix. */
  predicate ExcludedRest(rest: string) {
    "api" <= rest || "_next/static" <= rest || "_next/image" <= rest || FaviconLike(rest) || "logo" <= rest
  }

  /** No character is a line terminator, so a regular-expression `.*` spans the whole text. */
  predicate NoLineTerminator(s: string) {
    forall i :: 0 <= i < |s| ==> !IsLineTerminator(s[i])
  }

  /** The matcher `/((?!api|_next/static|_next/image|favicon.ico|logo).*)`, anchored at both ends, applied to a path. */
  function Matched(path: string): (m: bool)
    ensures m ==> |path| >= 1 && path[0] == '/'
    ensures (exists i :: 1 <= i < |path| && IsLineTerminator(path[i])) ==> !m
    ensures "/api" <= path || "/_next/static" <= path || "/_next/image" <= path || "/logo" <= path ==> !m
    ensures |path| == 1 && path[0] == '/' ==> m
  {
    |path| >= 1 && path[0] == '/' && !ExcludedRest(path[1..]) && NoLineTerminator(path[1..])
  }

  /** What a request receives: the guard's answer when the matcher selects it, otherwise it passes untouched. */
  function Handle(cookie: Option<string>, path: string): (o: Outcome)
    ensures !Matched(path) ==> o == PassThrough
    ensures Matched(path) && !HasToken(cookie) ==> (o == Redirect(LoginPath) <==> !IsAuthRoute(path))
    ensures Matched(path) && HasToken(cookie) ==> (o == Redirect(DashboardPath) <==> IsAuthRoute(path))
    ensures o.Redirect? ==> o.target == LoginPath || o.target == DashboardPath
    ensures o == PassThrough <==> !Matched(path) || (HasToken(cookie) <==> !IsAuthRoute(path))
  {
    if Matched(path) then Guard(cookie, path) else PassThrough
  }

  /** With no token, every guarded non-auth path goes to the login page. */
  lemma UnauthenticatedGoesToLogin(cookie: Option<string>, path: string)
    requires !HasToken(cookie) && !IsAuthRoute(path)
    ensures Guard(cookie, path) == Redirect(LoginPath)
  {
  }

  /** With a token, login and register pages go to the dashboard. */
  lemma AuthenticatedLeavesAuthPages(cookie: Option<string>, path: string)
    requires HasToken(cookie) && IsAuthRoute(path)
    ensures Guard(cookie, path) == Redirect(DashboardPath)
  {
  }

  /** The two redirect cases are the only ones; every other combination passes through. */
  lemma PassThroughExactly(cookie: Option<string>, path: string)
    ensures Guard(cookie, path) == PassThrough <==> (HasToken(cookie) <==> !IsAuthRoute(path))
  {
  }

  /** An empty cookie value is indistinguishable from a missing cookie. */
  lemma EmptyCookieIsNoToken(path: string)
    ensures Handle(Some(""), path) == Handle(None, path)
  {
  }

  /** Prefix matching admits sub-paths and longer words alike. */
  lemma AuthRoutePrefixes()
    ensures IsAuthRoute("/login/x") && IsAuthRoute("/registers") && IsAuthRoute("/login")
    ensures !IsAuthRoute("/dashboard") && !IsAuthRoute("/log")
  {
    assert "/log" < "/login";
    assert !(LoginPath <= "/dashboard") by { assert LoginPath[1] != "/dashboard"[1]; }
    assert !(RegisterPath <= "/dashboard") by { assert RegisterPath[1] != "/dashboard"[1]; }
  }

  /** The excluded prefixes are never guarded, whatever the cookie. */
  lemma ExcludedPathsPass(cookie: Option<string>, rest: string)
    requires "api" <= rest || "_next/static" <= rest || "_next/image" <= rest || "logo" <= rest
             || (|rest| >= 11 && rest[..11] == "favicon.ico")
    ensures Handle(cookie, "/" + rest) == PassThrough
  {
  }

  /** Every path outside the excluded prefixes is guarded: the matcher protects all other routes. */
  lemma GuardedUnlessExcluded(cookie: Option<string>, rest: string)
    requires !("api" <= rest) && !("_next/static" <= rest) && !("_next/image" <= rest) && !("logo" <= rest)
    requires !FaviconLike(rest)
    requires forall i :: 0 <= i < |rest| ==> !IsLineTerminator(rest[i])
    ensures Matched("/" + rest)
    ensures Handle(cookie, "/" + rest) == Guard(cookie, "/" + rest)
  {
    assert ("/" + rest)[1..] == rest;
  }

  /** Both redirect targets are themselves guarded, so the loop question is real. */
  lemma TargetsAreGuarded()
    ensures Matched(LoginPath) && Matched(DashboardPath)
  {
    assert LoginPath[1..] == "login";
    assert DashboardPath[1..] == "dashboard";
    assert !("logo" <= "login") by { assert "login"[3] != "logo"[3]; }
    assert !("api" <= "dashboard") by { assert "dashboard"[0] != "api"[0]; }
  }

  /** No redirect loop: following a redirect with the same cookie lands on a page that passes. */
  lemma NoRedirectLoop(cookie: Option<string>, path: string)
    requires Handle(cookie, path).Redirect?
    ensures Handle(cookie, Handle(cookie, path).target) == PassThrough
  {
  }

  /** After at most one redirect the visitor sits on a page consistent with the session:
      signed in exactly when the page is not a login/register page. */
  lemma OneRedirectSettles(cookie: Option<string>, path: string)
    requires Matched(path)
    ensures var landing := if Handle(cookie, path).Redirect? then Handle(cookie, path).target else path;
            HasToken(cookie) <==> !IsAuthRoute(landing)
  {
    if Handle(cookie, path).Redirect? {
      TargetsAreGuarded();
      NoRedirectLoop(cookie, path);
    }
  }
}

=== FILE: nav.dfy ===
/** The sidebar's active-item highlight. */
module NavMain {

  const DashboardUrl := "/dashboard"

  datatype NavItem = NavItem(title: string, url: string)

  /** The dashboard root is active only on its own page; every other item is active
      on any path its url is a character prefix of. */
  function IsActive(itemUrl: string, pathname: string): (a: bool)
    ensures itemUrl == pathname ==> a
    ensures a ==> |itemUrl| <= |pathname| && pathname[..|itemUrl|] == itemUrl
  {
    if itemUrl == DashboardUrl then pathname == DashboardUrl else itemUrl <= pathname
  }

  /** The highlight flag of each item, in menu order. */
  function ActiveFlags(items: seq<NavItem>, pathname: string): (flags: seq<bool>)
    ensures |flags| == |items|
    ensures forall i :: 0 <= i < |items| ==> flags[i] == IsActive(items[i].url, pathname)
    ensures forall i :: 0 <= i < |items| && items[i].url == pathname ==> flags[i]
    ensures forall i :: 0 <= i < |items| && flags[i] ==> |items[i].url| <= |pathname|
  {
    seq(|items|, i requires 0 <= i < |items| => IsActive(items[i].url, pathname))
  }

  lemma DashboardExact(pathname: string)
    ensures IsActive(DashboardUrl, pathname) <==> pathname == DashboardUrl
  {
  }

  /** Sub-pages of the dashboard do not light up the dashboard item. */
  lemma DashboardNotOnSubpaths(suffix: string)
    requires suffix != ""
    ensures !IsActive(DashboardUrl, DashboardUrl + suffix)
  {
  }

  lemma OtherItemsByPrefix(itemUrl: string, pathname: string)
    requires itemUrl != DashboardUrl
    ensures IsActive(itemUrl, pathname) <==> |itemUrl| <= |pathname| && pathname[..|itemUrl|] == itemUrl
  {
  }

  /** Every item is active on its own page. */
  lemma OwnPageActive(itemUrl: string)
    ensures IsActive(itemUrl, itemUrl)
  {
  }

  /** Extending the path keeps a non-dashboard item active. */
  lemma ActiveUnderExtension(itemUrl: string, pathname: string, suffix: string)
    requires itemUrl != DashboardUrl && IsActive(itemUrl, pathname)
    ensures IsActive(itemUrl, pathname + suffix)
  {
  }

  /** Matching is by characters, not path segments. */
  lemma CharacterPrefixMatch()
    ensures IsActive("/x", "/xy")
    ensures IsActive("/servantees", "/servantees-archive")
  {
  }
}

=== FILE: notes.dfy ===
/** The notes panel attached to a servantee or a retreat: which requests it issues
    and how it updates its local list. */
module Notes {
  import opened Common
  import opened Http

  datatype EntityType = Servantee | Retreat

  /** A note as the panel keeps it; timestamps are only displayed and are left out. */
  datatype Note = Note(id: string, content: string)

  function TypeName(t: EntityType): string {
    match t
    case Servantee => "servantee"
    case Retreat => "retreat"
  }

  /** The body key naming the note's owner: the type name followed by `Id`. */
  function OwnerKey(t: EntityType): (k: string)
    ensures t == Servantee <==> k == "servanteeId"
    ensures t == Retreat <==> k == "retreatId"
  {
    TypeName(t) + "Id"
  }

  /** The load request for an entity's notes; nothing is loaded for an empty id. */
  function FetchRequest(t: EntityType, entityId: string): (r: Option<Request>)
    ensures r.None? <==> entityId == ""
    ensures r.Some? ==> r.value.verb == Get && r.value.body.None?
    ensures r.Some? ==> r.value.path == "/notes/" + TypeName(t) + "/" + entityId
  {
    if entityId == "" then None else Some(Request(Get, "/notes/" + TypeName(t) + "/" + entityId, None))
  }

  /** The characters `String.prototype.trim` strips: the ECMAScript white space and line terminators. */
  predicate IsTrimmable(c: char) {
    || c == '\t' || c == '\U{000B}' || c == '\U{000C}' || c == ' ' || c == '\U{00A0}' || c == '\U{FEFF}'
    || c == '\U{1680}' || ('\U{2000}' <= c <= '\U{200A}') || c == '\U{202F}' || c == '\U{205F}' || c == '\U{3000}'
    || c == '\n' || c == '\r' || c == '\U{2028}' || c == '\U{2029}'
  }

  predicate AllTrimmable(s: string) {
    forall i :: 0 <= i < |s| ==> IsTrimmable(s[i])
  }

  function TrimStart(s: string): (r: string)
    ensures |r| <= |s| && r == s[|s| - |r|..]
    ensures AllTrimmable(s[..|s| - |r|])
    ensures r == [] || !IsTrimmable(r[0])
    decreases |s|
  {
    if |s| > 0 && IsTrimmable(s[0]) then
      var r := TrimStart(s[1..]);
      assert s[..|s| - |r|] == [s[0]] + s[1..][..|s| - 1 - |r|];
      r
    else s
  }

  function TrimEnd(s: string): (r: string)
    ensures |r| <= |s| && r == s[..|r|]
    ensures AllTrimmable(s[|r|..])
    ensures r == [] || !IsTrimmable(r[|r| - 1])
    decreases |s|
  {
    if |s| > 0 && IsTrimmable(s[|s| - 1]) then
      var r := TrimEnd(s[..|s| - 1]);
      assert s[|r|..] == s[..|s| - 1][|r|..] + [s[|s| - 1]];
      r
    else s
  }

  /** `s.trim()`: the slice between the leading and the trailing white space. */
  function Trim(s: string): (r: string)
    ensures var lead := |s| - |TrimStart(s)|;
            && lead + |r| <= |s| && r == s[lead..lead + |r|]
            && AllTrimmable(s[..lead]) && AllTrimmable(s[lead + |r|..])
    ensures r == [] || (!IsTrimmable(r[0]) && !IsTrimmable(r[|r| - 1]))
  {
    var a := TrimStart(s);
    var r := TrimEnd(a);
    assert s[|s| - |a| + |r|..] == a[|r|..];
    r
  }

  /** The trimmed text is empty exactly when every character is white space or a line break. */
  lemma TrimEmptyIffBlank(s: string)
    ensures Trim(s) == "" <==> AllTrimmable(s)
  {
  }

  /** The note-creation request: nothing for a blank draft, otherwise the untrimmed content and
      exactly one owner key. */
  function CreateRequest(draft: string, t: EntityType, entityId: string): (r: Option<Request>)
    ensures r.None? <==> Trim(draft) == ""
    ensures r.Some? ==> r.value.verb == Post && r.value.path == "/notes" && r.value.body.Some?
    ensures r.Some? ==> r.value.body.value.Keys == {"content", OwnerKey(t)}
    ensures r.Some? ==> r.value.body.value["content"] == Str(draft) && r.value.body.value[OwnerKey(t)] == Str(entityId)
  {
    if Trim(draft) == "" then None
    else Some(Request(Post, "/notes", Some(map["content" := Str(draft), OwnerKey(t) := Str(entityId)])))
  }

  /** A draft made only of white space is never sent. */
  lemma BlankDraftNeverSent(draft: string, t: EntityType, entityId: string)
    requires AllTrimmable(draft)
    ensures CreateRequest(draft, t, entityId).None?
  {
  }

  /** Reads the note id back from a `/notes/<id>` path. */
  function NoteIdOfPath(path: string): Option<string> {
    if "/notes/" <= path then Some(path[7..]) else None
  }

  /** Reads the owner back from a `/notes/<type>/<id>` path. */
  function OwnerOfPath(path: string): Option<(EntityType, string)> {
    if "/notes/servantee/" <= path then Some((Servantee, path[17..]))
    else if "/notes/retreat/" <= path then Some((Retreat, path[15..]))
    else None
  }

  /** The load path names exactly the entity whose notes are wanted. */
  lemma FetchPathNamesOwner(t: EntityType, entityId: string)
    requires entityId != ""
    ensures OwnerOfPath(FetchRequest(t, entityId).value.path) == Some((t, entityId))
  {
    var path := FetchRequest(t, entityId).value.path;
    if t == Retreat {
      assert path[7] == 'r';
    }
  }

  function DeleteRequest(id: string): (r: Request)
    ensures r.verb == Delete && r.path == "/notes/" + id && r.body.None?
  {
    Request(Delete, "/notes/" + id, None)
  }

  /** The edit request: nothing when no note is being edited, otherwise a PATCH carrying only the content. */
  function UpdateRequest(editing: Option<Note>, editedContent: string): (r: Option<Request>)
    ensures r.None? <==> editing.None?
    ensures r.Some? ==> r.value.verb == Patch && r.value.path == "/notes/" + editing.value.id
    ensures r.Some? ==> r.value.body == Some(map["content" := Str(editedContent)])
  {
    match editing
    case None => None
    case Some(n) => Some(Request(Patch, "/notes/" + n.id, Some(map["content" := Str(editedContent)])))
  }

  /** Delete and update address exactly the note they act on. */
  lemma RequestPathsNameNote(id: string, n: Note, editedContent: string)
    ensures NoteIdOfPath(DeleteRequest(id).path) == Some(id)
    ensures NoteIdOfPath(UpdateRequest(Some(n), editedContent).value.path) == Some(n.id)
  {
    assert ("/notes/" + id)[7..] == id;
    assert ("/notes/" + n.id)[7..] == n.id;
  }

  /** `prev.filter(n => n._id !== id)`. */
  function WithoutNote(notes: seq<Note>, id: string): (r: seq<Note>)
    ensures forall n :: n in r ==> n.id != id && n in notes
    ensures forall n :: n in notes && n.id != id ==> n in r
  {
    Filter(notes, (n: Note) => n.id != id)
  }

  /** `xs` keeps a selection of `ys`'s elements in `ys`'s order. */
  predicate IsSubsequence<T(==)>(xs: seq<T>, ys: seq<T>)
    decreases |ys|
  {
    if |xs| == 0 then true
    else if |ys| == 0 then false
    else if xs[0] == ys[0] then IsSubsequence(xs[1..], ys[1..])
    else IsSubsequence(xs, ys[1..])
  }

  /** Removing a note keeps the other notes in their original order. */
  lemma {:induction false} WithoutNoteKeepsOrder(notes: seq<Note>, id: string)
    ensures IsSubsequence(WithoutNote(notes, id), notes)
    decreases |notes|
  {
    if |notes| > 0 {
      WithoutNoteKeepsOrder(notes[1..], id);
      if notes[0].id != id {
        assert WithoutNote(notes, id)[1..] == WithoutNote(notes[1..], id);
      } else {
        assert WithoutNote(notes, id) == WithoutNote(notes[1..], id);
        var r := WithoutNote(notes, id);
        if |r| > 0 {
          assert r[0] in r;
        }
      }
    }
  }

  /** Removing the same id a second time changes nothing. */
  lemma WithoutNoteIdempotent(notes: seq<Note>, id: string)
    ensures WithoutNote(WithoutNote(notes, id), id) == WithoutNote(notes, id)
  {
    FilterIdempotent(notes, (n: Note) => n.id != id);
  }

  /** Removal acts on each part of the list separately. */
  lemma WithoutNoteSplits(a: seq<Note>, b: seq<Note>, id: string)
    ensures WithoutNote(a + b, id) == WithoutNote(a, id) + WithoutNote(b, id)
  {
    FilterAppend(a, b, (n: Note) => n.id != id);
  }

  /** The panel's state. */
  datatype Panel = Panel(notes: seq<Note>, loading: bool, draft: string, editing: Option<Note>, editedContent: string)

  /** A reload of the list: nothing for an empty id, otherwise the loading flag is raised and the load request issued. */
  function ReloadRequested(p: Panel, t: EntityType, entityId: string): (pr: (Panel, Option<Request>))
    ensures pr.1 == FetchRequest(t, entityId)
    ensures pr.1.Some? ==> pr.0 == p.(loading := true)
    ensures pr.1.None? ==> pr.0 == p
  {
    match FetchRequest(t, entityId)
    case None => (p, None)
    case Some(r) => (p.(loading := true), Some(r))
  }

  /** The load settles: a received list replaces the local one, a failed load keeps it; loading ends either way. */
  function NotesLoaded(p: Panel, loaded: Option<seq<Note>>): (p': Panel)
    ensures !p'.loading
    ensures loaded.Some? ==> p'.notes == loaded.value
    ensures loaded.None? ==> p'.notes == p.notes
    ensures p'.draft == p.draft && p'.editing == p.editing && p'.editedContent == p.editedContent
  {
    match loaded
    case Some(data) => p.(notes := data, loading := false)
    case None => p.(loading := false)
  }

  /** The outcome of the delete request: on success the note leaves the list; on failure nothing changes. */
  function AfterDelete(p: Panel, id: string, succeeded: bool): (p': Panel)
    ensures !succeeded ==> p' == p
    ensures succeeded ==> p'.notes == WithoutNote(p.notes, id)
    ensures p'.draft == p.draft && p'.editing == p.editing && p'.editedContent == p.editedContent
  {
    if succeeded then p.(notes := WithoutNote(p.notes, id)) else p
  }

  /** A successful create empties the draft and reloads the list; a failed one keeps the draft for another try. */
  function AfterCreate(p: Panel, t: EntityType, entityId: string, succeeded: bool): (pr: (Panel, Option<Request>))
    ensures succeeded ==> pr.0.draft == "" && pr.1 == FetchRequest(t, entityId)
    ensures succeeded ==> pr.0.editedContent == p.editedContent && (pr.0.loading <==> entityId != "" || p.loading)
    ensures !succeeded ==> pr == (p, None)
    ensures pr.0.notes == p.notes && pr.0.editing == p.editing
  {
    if succeeded then ReloadRequested(p.(draft := ""), t, entityId) else (p, None)
  }

  /** A successful update closes the editor and reloads the list; a failed one leaves it open. */
  function AfterUpdate(p: Panel, t: EntityType, entityId: string, succeeded: bool): (pr: (Panel, Option<Request>))
    ensures succeeded ==> pr.0.editing.None? && pr.1 == FetchRequest(t, entityId)
    ensures succeeded ==> pr.0.editedContent == p.editedContent && (pr.0.loading <==> entityId != "" || p.loading)
    ensures !succeeded ==> pr == (p, None)
    ensures pr.0.notes == p.notes && pr.0.draft == p.draft
  {
    if succeeded then ReloadRequested(p.(editing := None), t, entityId) else (p, None)
  }

  /** After a successful create and its reload, the panel shows the server's list with an empty draft. */
  lemma CreateThenReloadShowsServerList(p: Panel, t: EntityType, entityId: string, data: seq<Note>)
    requires entityId != ""
    ensures var (p1, reload) := AfterCreate(p, t, entityId, true);
            && reload.Some? && p1.loading
            && NotesLoaded(p1, Some(data)).notes == data
            && NotesLoaded(p1, Some(data)).draft == ""
            && !NotesLoaded(p1, Some(data)).loading
  {
  }

  /** Opening the editor on a note starts from that note's content. */
  function StartEditing(p: Panel, n: Note): (p': Panel)
    ensures p'.editing == Some(n) && p'.editedContent == n.content
    ensures UpdateRequest(p'.editing, p'.editedContent).Some?
    ensures p'.notes == p.notes && p'.draft == p.draft
  {
    p.(editing := Some(n), editedContent := n.content)
  }
}

=== FILE: pagination.dfy ===
/** The previous/next controls under every paginated table. */
module PaginatedTable {

  /** What the controls see: the current page, whether more data exists, and whether a load is running. */
  datatype Pager = Pager(page: int, hasMore: bool, loading: bool)

  datatype Button = Previous | Next

  /** "Previous" steps back but never below page 1. */
  function StepBack(p: int): (q: int)
    ensures q >= 1
    ensures p > 1 ==> q == p - 1 && q < p
    ensures p <= 1 ==> q == 1
  {
    if 1 >= p - 1 then 1 else p - 1
  }

  function StepForward(p: int): (q: int)
    ensures q == p + 1
    ensures p >= 1 ==> StepBack(q) == p
  {
    p + 1
  }

  predicate PreviousDisabled(s: Pager) {
    s.page == 1 || s.loading
  }

  predicate NextDisabled(s: Pager) {
    !s.hasMore || s.loading
  }

  predicate Enabled(s: Pager, b: Button) {
    match b
    case Previous => !PreviousDisabled(s)
    case Next => !NextDisabled(s)
  }

  /** A click: a disabled button does nothing, an enabled one moves the page. */
  function Click(s: Pager, b: Button): (s': Pager)
    ensures s'.hasMore == s.hasMore && s'.loading == s.loading
    ensures !Enabled(s, b) ==> s' == s
    ensures Enabled(s, b) && b == Next ==> s'.page == s.page + 1
    ensures Enabled(s, b) && b == Previous && s.page >= 1 ==> s'.page == s.page - 1
  {
    if !Enabled(s, b) then s
    else match b
      case Previous => s.(page := StepBack(s.page))
      case Next => s.(page := StepForward(s.page))
  }

  /** A sequence of clicks, applied in order. */
  function Clicks(s: Pager, bs: seq<Button>): Pager
    decreases |bs|
  {
    if |bs| == 0 then s else Clicks(Click(s, bs[0]), bs[1..])
  }

  /** While loading, both buttons are disabled and no click changes anything. */
  lemma {:induction false} LoadingFreezes(s: Pager, bs: seq<Button>)
    requires s.loading
    ensures !Enabled(s, Previous) && !Enabled(s, Next)
    ensures Clicks(s, bs) == s
    decreases |bs|
  {
    if |bs| > 0 {
      LoadingFreezes(Click(s, bs[0]), bs[1..]);
    }
  }

  /** Starting on a page of at least 1, no click sequence leaves the valid page range. */
  lemma {:induction false} PageStaysPositive(s: Pager, bs: seq<Button>)
    requires s.page >= 1
    ensures Clicks(s, bs).page >= 1
    decreases |bs|
  {
    if |bs| > 0 {
      PageStaysPositive(Click(s, bs[0]), bs[1..]);
    }
  }

  /** Next undoes Previous on any page past the first. */
  lemma BackThenForward(p: int)
    requires p > 1
    ensures StepForward(StepBack(p)) == p
  {
  }

  /** Previous undoes Next from any valid page. */
  lemma ForwardThenBack(p: int)
    requires p >= 1
    ensures StepBack(StepForward(p)) == p
  {
  }

  /** The two buttons as the user sees them: Previous is off exactly on page 1 or while loading,
      Next is off exactly when there is no more data or while loading. */
  lemma DisabledExactly(s: Pager)
    ensures !Enabled(s, Previous) <==> s.page == 1 || s.loading
    ensures !Enabled(s, Next) <==> !s.hasMore || s.loading
  {
  }
}

=== FILE: section_cards.dfy ===
/** The dashboard summary cards: new servantees this month and the change against
    last month, the number of servants, and the next retreat. Times are integer
    milliseconds; the current instant and the two month starts are inputs. */
module SectionCards {
  import opened Common

  datatype Servantee = Servantee(createdAt: int)
  datatype Retreat = Retreat(title: string, startDate: int)

  /** The instant of the refresh and the starts of the current and previous calendar months. */
  datatype Clock = Clock(now: int, thisMonthStart: int, lastMonthStart: int)

  /** Created strictly after the start of the current month. */
  predicate NewThisMonth(clock: Clock, s: Servantee) {
    s.createdAt > clock.thisMonthStart
  }

  /** Created strictly between the starts of the previous and the current month. */
  predicate NewLastMonth(clock: Clock, s: Servantee) {
    clock.lastMonthStart < s.createdAt < clock.thisMonthStart
  }

  function CountThisMonth(servantees: seq<Servantee>, clock: Clock): (n: nat)
    ensures n <= |servantees|
    ensures n == |Positions(servantees, s => NewThisMonth(clock, s))|
  {
    FilterCountsPositions(servantees, s => NewThisMonth(clock, s));
    |Filter(servantees, s => NewThisMonth(clock, s))|
  }

  function CountLastMonth(servantees: seq<Servantee>, clock: Clock): (n: nat)
    ensures n <= |servantees|
    ensures n == |Positions(servantees, s => NewLastMonth(clock, s))|
  {
    FilterCountsPositions(servantees, s => NewLastMonth(clock, s));
    |Filter(servantees, s => NewLastMonth(clock, s))|
  }

  /** The two month windows do not overlap, so no servantee is counted twice. */
  lemma MonthsDisjoint(servantees: seq<Servantee>, clock: Clock)
    ensures CountThisMonth(servantees, clock) + CountLastMonth(servantees, clock) <= |servantees|
  {
    FilterDisjointCounts(servantees, s => NewThisMonth(clock, s), s => NewLastMonth(clock, s));
  }

  /** Month-over-month change in percent, as an exact rational: 100 when last month had none. */
  function Change(thisCount: nat, lastCount: nat): (c: real)
    ensures lastCount == 0 ==> c == 100.0
    ensures lastCount > 0 ==> c * (lastCount as real) == (thisCount as real - lastCount as real) * 100.0
    ensures c >= -100.0
  {
    if lastCount == 0 then 100.0
    else (thisCount as real - lastCount as real) / (lastCount as real) * 100.0
  }

  /** With a non-empty previous month, the sign of the change follows the comparison of the counts. */
  lemma ChangeSign(thisCount: nat, lastCount: nat)
    requires lastCount > 0
    ensures Change(thisCount, lastCount) < 0.0 <==> thisCount < lastCount
    ensures Change(thisCount, lastCount) == 0.0 <==> thisCount == lastCount
    ensures Change(thisCount, lastCount) > 0.0 <==> thisCount > lastCount
  {
  }

  /** The change, applied to last month's count, gives back this month's count. */
  lemma ChangeRecoversCount(thisCount: nat, lastCount: nat)
    requires lastCount > 0
    ensures lastCount as real + (lastCount as real) * Change(thisCount, lastCount) / 100.0 == thisCount as real
  {
  }

  /** An empty previous month reports +100 whatever this month holds, even when it is empty too. */
  lemma ChangeWithEmptyLastMonth(thisCount: nat)
    ensures Change(thisCount, 0) == 100.0 && Change(0, 0) == 100.0
  {
  }

  /** `Math.round`: the nearest integer, halves rounded up. */
  function RoundHalfUp(x: real): (r: int)
    ensures x - 0.5 < r as real <= x + 0.5
  {
    (x + 0.5).Floor
  }

  /** `dayjs(t).unix()`: whole seconds, rounded down. */
  function Seconds(ms: int): (s: int)
    ensures s * 1000 <= ms < s * 1000 + 1000
  {
    ms / 1000
  }

  predicate InFuture(clock: Clock, r: Retreat) {
    r.startDate > clock.now
  }

  function FutureRetreats(retreats: seq<Retreat>, clock: Clock): seq<Retreat> {
    Filter(retreats, r => InFuture(clock, r))
  }

  /** The position a stable ascending sort by start second brings to the front: the first
      retreat whose start second is minimal. */
  function EarliestIndex(rs: seq<Retreat>): (k: nat)
    requires |rs| > 0
    ensures k < |rs|
    ensures forall j :: 0 <= j < |rs| ==> Seconds(rs[k].startDate) <= Seconds(rs[j].startDate)
    ensures forall j :: 0 <= j < k ==> Seconds(rs[j].startDate) > Seconds(rs[k].startDate)
    decreases |rs|
  {
    if |rs| == 1 then 0
    else
      var k' := EarliestIndex(rs[1..]);
      if Seconds(rs[0].startDate) <= Seconds(rs[1..][k'].startDate) then 0 else k' + 1
  }

  /** Only one position is both minimal and first among the minimal ones. */
  lemma EarliestIndexUnique(rs: seq<Retreat>, k: nat)
    requires k < |rs|
    requires forall j :: 0 <= j < |rs| ==> Seconds(rs[k].startDate) <= Seconds(rs[j].startDate)
    requires forall j :: 0 <= j < k ==> Seconds(rs[j].startDate) > Seconds(rs[k].startDate)
    ensures k == EarliestIndex(rs)
  {
  }

  /** The next retreat: the head of the future retreats sorted by start, or none. */
  function NextRetreat(retreats: seq<Retreat>, clock: Clock): (r: Option<Retreat>)
    ensures r.None? <==> forall x :: x in retreats ==> !InFuture(clock, x)
    ensures r.Some? ==> r.value in retreats && InFuture(clock, r.value)
    ensures r.Some? ==> forall x :: x in retreats && InFuture(clock, x) ==> Seconds(r.value.startDate) <= Seconds(x.startDate)
    ensures r.Some? ==> var f := FutureRetreats(retreats, clock);
                        exists k :: 0 <= k < |f| && f[k] == r.value
                                    && forall j :: 0 <= j < k ==> Seconds(f[j].startDate) > Seconds(r.value.startDate)
  {
    var future := FutureRetreats(retreats, clock);
    if |future| == 0 then None
    else
      var k := EarliestIndex(future);
      assert forall x :: x in future ==> exists j :: 0 <= j < |future| && future[j] == x;
      assert future[k] in future;
      Some(future[k])
  }

  /** The chosen retreat starts less than a second after any other future retreat. */
  lemma NextRetreatWithinASecond(retreats: seq<Retreat>, clock: Clock, x: Retreat)
    requires NextRetreat(retreats, clock).Some?
    requires x in retreats && InFuture(clock, x)
    ensures NextRetreat(retreats, clock).value.startDate < x.startDate + 1000
  {
  }

  /** What the cards show. */
  datatype Stats = Stats(
    newServantees: nat,
    newServanteesChange: int,
    servants: nat,
    retreats: seq<Retreat>,
    nextRetreat: Option<Retreat>,
    loading: bool)

  /** Before the first load: zeros, no retreats, loading. */
  function InitialStats(): (st: Stats)
    ensures st.loading && st.nextRetreat.None? && st.retreats == []
  {
    Stats(0, 0, 0, [], None, true)
  }

  /** The cards after a successful load of servantees, users and retreats. */
  function Refreshed<U>(servantees: seq<Servantee>, users: seq<U>, retreats: seq<Retreat>, clock: Clock): (st: Stats)
    ensures !st.loading
    ensures st.servants == |users|
    ensures st.retreats == retreats
    ensures st.newServantees <= |servantees|
    ensures st.newServanteesChange >= -100
    ensures st.newServantees == CountThisMonth(servantees, clock)
    ensures st.newServanteesChange
            == RoundHalfUp(Change(CountThisMonth(servantees, clock), CountLastMonth(servantees, clock)))
    ensures st.nextRetreat == NextRetreat(retreats, clock)
  {
    var thisCount := CountThisMonth(servantees, clock);
    var lastCount := CountLastMonth(servantees, clock);
    Stats(thisCount, RoundHalfUp(Change(thisCount, lastCount)), |users|, retreats, NextRetreat(retreats, clock), false)
  }

  /** One refresh: marked loading, then either the new cards or, when any of the three loads
      fails, the previous cards still marked loading. */
  function Refresh<U>(prev: Stats, loaded: Option<(seq<Servantee>, seq<U>, seq<Retreat>)>, clock: Clock): (st: Stats)
    ensures loaded.None? ==> st.loading && st.(loading := prev.loading) == prev
    ensures loaded.Some? ==> !st.loading && st.retreats == loaded.value.2 && st.servants == |loaded.value.1|
    ensures loaded.Some? ==> st == Refreshed(loaded.value.0, loaded.value.1, loaded.value.2, clock)
  {
    match loaded
    case None => prev.(loading := true)
    case Some((servantees, users, retreats)) => Refreshed(servantees, users, retreats, clock)
  }

  /** The cards after a successful refresh depend only on the loaded data and the clock, so a refresh
      that follows failed ones shows the same cards as a refresh from the initial state. */
  lemma RefreshForgetsFailures<U>(prev: Stats, failures: nat, loaded: (seq<Servantee>, seq<U>, seq<Retreat>), clock: Clock)
    ensures Refresh(FailedRefreshes<U>(prev, failures, clock), Some(loaded), clock)
            == Refresh(InitialStats(), Some(loaded), clock)
  {
  }

  /** `failures` refreshes in a row whose loads all fail. */
  function FailedRefreshes<U>(prev: Stats, failures: nat, clock: Clock): (st: Stats)
    ensures failures > 0 ==> st.loading
    ensures st.(loading := prev.loading) == prev
    decreases failures
  {
    if failures == 0 then prev else Refresh<U>(FailedRefreshes<U>(prev, failures - 1, clock), None, clock)
  }
}
